=== FILE: README.md ===
# Compatibility cache of the DVP3850 shows copier, in Dafny

The shows copier decides, episode by episode, whether a video file of a TV-show
library plays on a DVP3850 player, and remembers each verdict in a JSON file so that
the expensive check runs once per episode. This project models that memory and the
`opts` converter of the configuration reader. The copier itself reads its settings only
with `getpath` (main.py:151-153); `opts` is registered with the reader (config.py:29) for
multi-line option values.

- **Key resolution** (`Paths`, `Resolver`): a video path, given either under the
  library root or relative to it, names the entry `(show, season, episode)`. A path
  whose relativised `parts` are not three (the root `"/"` of an absolute path counting
  as one) is a `MalformedKey`; a show
  that is not the name of an entry of the library root is an `UnknownShow`.
- **The store** (`Store`): the three-level mapping show → season → episode → verdict,
  with `setdefault` insertion and leaf removal.
- **The cache** (`Cache`): `get`, `set`, `delete`, `set_compatible`,
  `set_incompatible`, `clear`, `len`, iteration, equality, and the file life cycle:
  construction that creates a missing file or loads an existing one, `read` and
  `write`.
- **The cache file** (`StringOrder`, `JsonString`, `JsonTree`, `CacheFile`): the text
  `json.dumps(data, sort_keys=True, indent=4)` produces for the store, with the default
  `ensure_ascii` escaping, and the `json.load` reading of it. Keys are sorted by code
  point at every level. Writing and then reading gives back the same store.
- **The `opts` converter** (`Converters`): `' '.join(value.strip().splitlines())`,
  with Python's whitespace and line-boundary character sets. It is related to an
  independent reference that replaces each line boundary by one space.
- **The cache's own test** (`CacheScenario`), replayed on the model.

Paths are modelled after `pathlib` has normalised them: a `FilePath` is an absolute flag
and a list of non-empty segments with no `/` in them. `parts` of an absolute path begins
with `"/"`, as in `pathlib`. So an absolute path outside the library root that has two
segments resolves to the show `"/"` and is reported as an unknown show. The file is
modelled by its contents: `Option<string>`, where `None` means there is no file.

## Model

| member | source | states |
|---|---|---|
| Paths.Parts | dvp3850_shows_copier/cache.py:85 | The parts of a path are its segments, preceded by `"/"` for an absolute path. |
| Paths.Join | dvp3850_shows_copier/cache.py:82-83 | Joining a non-empty relative path onto a base gives a path the base is a parent of. |
| Paths.RelativeTo | dvp3850_shows_copier/cache.py:83 | Making a path relative to one of its parents and joining it back gives the path again. |
| Resolver.Relativise | dvp3850_shows_copier/cache.py:82-83 | A path under the root becomes a relative path that joins back onto the root to give the path; any other path is kept as it is. |
| Resolver.Message | dvp3850_shows_copier/cache.py:88 | The unknown-show text is `Unknown show "`, then the show's name, then `".`. |
| Paths.RelativeToJoin | dvp3850_shows_copier/cache.py:82-83 | A path joined onto a base is relative to that base with exactly the joined segments. |
| Resolver.Resolve | dvp3850_shows_copier/cache.py:79-90 | A resolved key has a known show and names the path, in relative or root-joined form. A failure is a `MalformedKey` carrying parts that are not three, or an `UnknownShow` carrying a show that is not known. |
| Resolver.ResolveRelativeForm | dvp3850_shows_copier/cache.py:82-90 | The relative path `show/season/episode` of a key with a known show resolves to that key. |
| Resolver.ResolveAbsoluteForm | dvp3850_shows_copier/cache.py:82-90 | The library root joined with a key's path resolves to that key. |
| Resolver.PathFormsAgree | dvp3850_shows_copier/cache.py:82-85 | A path under the root and the same path relative to the root resolve identically, errors included. |
| Resolver.WrongDepthIsMalformed | dvp3850_shows_copier/cache.py:85 | A path whose relativised parts are not three is a `MalformedKey`, whatever the show. |
| Resolver.UnknownShowIsReported | dvp3850_shows_copier/cache.py:87-88 | A three-part path whose show is not known fails with that show's name. |
| Store.Put | dvp3850_shows_copier/cache.py:59-64 | After `setdefault` insertion the key holds the value. The show set grows by at most the key's show, that show's seasons by at most its season, and that season's episodes by exactly its episode. Every other show, every other season of the show and every other episode of the season keeps its value. |
| Store.Remove | dvp3850_shows_copier/cache.py:45-50 | Removing a present leaf makes it absent. The show and season levels stay, the season loses exactly that episode, and every other show, season and episode keeps its value. |
| StringOrder.BelowTransitive | dvp3850_shows_copier/cache.py:110 | Code-point order on strings is transitive. |
| StringOrder.BelowTotal | dvp3850_shows_copier/cache.py:110 | Any two distinct strings are ordered one way or the other. |
| StringOrder.LeastExists | dvp3850_shows_copier/cache.py:110 | Every non-empty set of keys has a least element. |
| StringOrder.SortedKeys | dvp3850_shows_copier/cache.py:110 | The sorted key listing is strictly increasing and lists exactly the set's elements, once each. |
| JsonString.EscapeChar | dvp3850_shows_copier/cache.py:110 | Each character is written as non-empty printable ASCII, and as itself exactly when it needs no escape. |
| JsonString.Escape | dvp3850_shows_copier/cache.py:110 | An escaped key is printable ASCII, and a key with nothing to escape is written unchanged. |
| JsonString.Hex4RoundTrip | dvp3850_shows_copier/cache.py:110 | The four lowercase hex digits of a code unit read back as that code unit. |
| JsonString.SurrogatesRoundTrip | dvp3850_shows_copier/cache.py:110 | A character above U+FFFF splits into a surrogate pair that combines back to it. |
| JsonString.StringRoundTrip | dvp3850_shows_copier/cache.py:98-110 | Reading an escaped key followed by its closing quote gives back the key and the text after the quote. |
| JsonTree.PrintParseRoundTrip | dvp3850_shows_copier/cache.py:98-110 | Parsing the indented text printed for a tree gives back the tree. |
| CacheFile.EncodeObject | dvp3850_shows_copier/cache.py:110 | An encoded mapping is an object whose members follow the sorted keys, each with its encoded value. |
| CacheFile.EncodeObjectKeys | dvp3850_shows_copier/cache.py:110 | An encoded object lists every key of the mapping exactly once, in strictly increasing order. |
| CacheFile.DecodeMembers | dvp3850_shows_copier/cache.py:100 | Members decode exactly when the last member for each key has a value that decodes; values overwritten by a later duplicate are never looked at. The decoded object has exactly the keys the members list. |
| CacheFile.OverwrittenValueIgnored | dvp3850_shows_copier/cache.py:100 | `{"a": true, "a": {}}` loads as the show `a` with no seasons, although its first value is not of the cache's shape. |
| CacheFile.LastOccurrenceWins | dvp3850_shows_copier/cache.py:100 | A key listed more than once maps to the decoded value of its last occurrence. |
| CacheFile.Serialise | dvp3850_shows_copier/cache.py:110 | The text `json.dumps` writes for a store parses as the store's tree with sorted keys. |
| CacheFile.Deserialise | dvp3850_shows_copier/cache.py:31 | Text loads exactly when it parses as JSON made only of objects and booleans, and the members that survive duplicate keys have the three-level shape; the empty text never loads. |
| CacheFile.EncodeDecode | dvp3850_shows_copier/cache.py:98-110 | Decoding the encoded tree of a store gives back the store. |
| CacheFile.EncodeSorted | dvp3850_shows_copier/cache.py:110 | The written tree has sorted keys at every level. |
| CacheFile.WriteReadRoundTrip | dvp3850_shows_copier/cache.py:98-110 | Reading the written text gives back the store, and the text is sorted at every level. |
| Cache.Get | dvp3850_shows_copier/cache.py:52-57 | A resolution error is reported first. Otherwise the lookup succeeds exactly when the show, season and episode are all present, returns the stored verdict, and otherwise fails with `NotFound`. |
| Cache.Set | dvp3850_shows_copier/cache.py:59-64 | Setting succeeds exactly when the path resolves. Afterwards the path reads back the value and the shows are the old ones plus the resolved show. Every path naming another entry reads as before, and the entries are the old ones with the `setdefault` insertion of `Store.Put` at the resolved key. |
| Cache.Delete | dvp3850_shows_copier/cache.py:45-50 | Deleting fails exactly when reading fails, with the same error. Afterwards the path reads `NotFound`, while its show and season and every other entry stay: the entries are the old ones with the leaf removed as `Store.Remove` states. |
| Cache.SetCompatible | dvp3850_shows_copier/cache.py:102-103 | After marking a resolvable path compatible it reads `true`. |
| Cache.SetIncompatible | dvp3850_shows_copier/cache.py:105-106 | After marking a resolvable path incompatible it reads `false`. |
| Cache.Shows | dvp3850_shows_copier/cache.py:66-67 | Iteration yields exactly the show names, not seasons or episodes. |
| Cache.Len | dvp3850_shows_copier/cache.py:66-70 | The length is the number of shows iteration yields. |
| Cache.Equal | dvp3850_shows_copier/cache.py:42-43 | Two caches are equal when they have the same shows, each with the same seasons and verdicts. |
| Cache.EqualIffSameFile | dvp3850_shows_copier/cache.py:42-43 | Two caches are equal exactly when `write` would give them the same file. |
| Cache.Clear | dvp3850_shows_copier/cache.py:75-76 | A cleared cache equals the empty mapping and has length 0. The root and known shows are kept. |
| Cache.Open | dvp3850_shows_copier/cache.py:19-31 | With no file, the cache starts empty and an empty file is created. An existing file loads exactly when it parses as a three-level object of booleans, and otherwise construction fails with `MalformedCacheFile`. |
| Cache.Read | dvp3850_shows_copier/cache.py:98-100 | Reading succeeds exactly when the file parses. The entries then become the file's contents, replacing the old ones, and the root and known shows are kept. |
| Cache.Write | dvp3850_shows_copier/cache.py:108-110 | The written text reads back as the cache's entries. |
| Cache.WriteThenRead | dvp3850_shows_copier/cache.py:98-110 | Reading a written file restores exactly the written entries and drops the reader's unwritten changes. |
| Cache.OpenWritten | dvp3850_shows_copier/cache.py:27-31 | Constructing from a written file gives an equal cache. |
| Cache.OpenEmptyFileFails | dvp3850_shows_copier/cache.py:27-31 | An existing but empty file is a `MalformedCacheFile`, not an empty cache. |
| Cache.PathFormsAgree | dvp3850_shows_copier/cache.py:79-85 | Get, set and delete treat a root-joined path and its relative form the same. |
| Cache.ResolutionErrorsShared | dvp3850_shows_copier/cache.py:45-64 | An unresolvable path fails get, set and delete with the same resolution error. |
| Cache.DeleteAfterSet | dvp3850_shows_copier/cache.py:45-64 | Deleting a just-set entry succeeds, leaves it `NotFound` and keeps the number of shows. |
| CacheScenario.ClearedIsEmpty | tests/test_cache.py:6-9 | A cleared cache equals `{}` and is written as `{}`. |
| CacheScenario.OneVerdict | tests/test_cache.py:11-14 | One verdict makes the cache differ from `{}`, and clearing makes it equal again. |
| CacheScenario.ThreeVerdictsStored | tests/test_cache.py:16-29 | Verdicts given by absolute and relative paths are all stored under the one show and read back. A misspelt show is refused as unknown. |
| CacheScenario.MisspeltMessage | tests/test_cache.py:26-29 | The unknown-show error reads `Unknown show "Ssouth Park".` |
| Converters.LineBreakIsSpace | dvp3850_shows_copier/config.py:11 | Every line boundary is whitespace, so stripping removes boundaries at both ends. |
| Converters.LeadingSpace | dvp3850_shows_copier/config.py:11 | The leading whitespace run is all whitespace and is followed by a non-space character or the end. |
| Converters.TrailingSpace | dvp3850_shows_copier/config.py:11 | The trailing whitespace run is all whitespace and is preceded by a non-space character or the start. |
| Converters.Strip | dvp3850_shows_copier/config.py:11 | The stripped value is empty exactly when the value is all whitespace. Otherwise it is what lies between the two whitespace runs, and it starts and ends with a non-space character. |
| Converters.FirstBreak | dvp3850_shows_copier/config.py:11 | The first line boundary is preceded only by non-boundary characters. |
| Converters.SplitLines | dvp3850_shows_copier/config.py:11 | A string has no lines exactly when it is empty, and no line contains a line boundary. |
| Converters.Join | dvp3850_shows_copier/config.py:12 | Joining no lines gives the empty string; otherwise the result starts with the first line, and it has no line boundary when neither the lines nor the separator have one. |
| Converters.Opts | dvp3850_shows_copier/config.py:10-12 | The result has no line boundary and no leading or trailing whitespace, and is empty exactly when the value is all whitespace. |
| Converters.Flatten | dvp3850_shows_copier/config.py:11-12 | The reference has no line boundary and is empty only for the empty string. |
| Converters.FlattenEdges | dvp3850_shows_copier/config.py:11-12 | The reference keeps the first and last characters when they are not boundaries. |
| Converters.JoinedLinesAreFlattened | dvp3850_shows_copier/config.py:11-12 | Joining the lines with single spaces equals replacing each boundary, `\r\n` counted once, by a space, for text that does not end in a boundary. |
| Converters.OptsIsFlattenedStrip | dvp3850_shows_copier/config.py:10-12 | The converter equals the reference applied to the stripped value. |
| Converters.SingleLineUnchanged | dvp3850_shows_copier/config.py:10-12 | A single line without surrounding whitespace is returned unchanged. |
| Converters.OptsIdempotent | dvp3850_shows_copier/config.py:10-12 | Converting twice is the same as converting once. |
| Converters.FlattenJoin | dvp3850_shows_copier/config.py:11-12 | Lines joined by newlines flatten to the same lines joined by spaces. |
| Converters.LinesJoinedBySpace | dvp3850_shows_copier/config.py:10-12 | Options given one per line come out joined by exactly one space. |
| Converters.EmptyLineAddsSpace | dvp3850_shows_copier/config.py:11-12 | An empty line between two options leaves two spaces between them. |

## Left out

- The known shows are a parameter of the cache. `get_shows_enum` lists the names of the entries of the library root, files as well as directories (`iterdir`), that `Enum` accepts as member names (it drops dunder names such as `__x__` and raises `ValueError` on `_x_`-style names and `mro`), memoised with `lru_cache` (cache.py:11-14); the listing, the memoisation and the file system are not modelled. The module as written also uses `enum` without importing it, and the constructor mixes tabs and spaces; the model assumes the evident intent.
- Path strings are not parsed. The model starts from the path `Path(...)` produces: `pathlib` keeps `..` and `~` as ordinary segments and collapses repeated slashes and `.` segments, and a `FilePath` represents all of these. Only the parsing of the string, and a leading `//` (which `pathlib` keeps as a root of its own), are outside the model.
- File handling (`exists`, `touch`, `open`, `close`) is not modelled. A file is its contents, or `None` when it does not exist. Construction reports the contents left behind: `""` for a newly created file.
- Python exceptions are values of `CacheError`. Only the unknown-show message is the source's text; the unpacking `ValueError`, the error of a missing level (`AttributeError` for a missing show, `TypeError` for a missing season, `KeyError` for a missing episode) and the JSON decoding error are each one error value.
- Empty existing file: `json.load` raises on an empty file, so constructing against a file that was only created fails with `MalformedCacheFile` (`Cache.OpenEmptyFileFails`).
- Cache.Open: the model accepts only a three-level object of booleans, which is all `write` produces, and rejects anything else with `MalformedCacheFile` at construction or read. The source accepts some of those shapes: integer verdicts such as `{"S": {"s": {"e": 1}}}` load and `__getitem__` returns them. It fails on others at other points: a top-level `null`, number or non-empty string fails inside `update` at construction (cache.py:31), and a wrongly nested value fails only when it is used; `read` (cache.py:100) assigns whatever JSON value it finds, which fails only when it is used. A top-level `""` or `[]` is a no-op for `update`, so construction loads it as an empty cache, and a top-level list of two-element lists is loaded as key-value pairs; the model rejects all of these. Duplicate keys keep the value of their last occurrence, as in Python (`CacheFile.LastOccurrenceWins`), and the value a duplicate overwrote need not be of the cache's shape (`CacheFile.OverwrittenValueIgnored`), but it must still be an object or a boolean (see the CacheFile.Deserialise line).
- CacheFile.Deserialise: the reader knows only the JSON values the cache file is written with, objects and booleans. Text holding a number, string, `null` or array anywhere is rejected, even as a value that a later duplicate key overwrites: `{"a": 1, "a": {}}` is rejected although `json.load` reads it as the valid cache `{"a": {}}`.
- Cache.Set: the source's `__setitem__` stores any value. The model stores booleans, the only values `set_compatible` and `set_incompatible` store.
- JsonString.StringRoundTrip: lone surrogate escapes (`\ud800` without a partner) are rejected rather than read, because a Dafny `char` cannot hold a surrogate. Keys are strings of Unicode scalar values, so the model cannot hold the lone surrogates Python uses for file-name bytes that are not valid UTF-8; `json.dumps` writes such a key as a lone `\udcXX` escape and `json.load` reads it back, and those file names are outside the model.
- `keys`, `values`, `items` and `__repr__` are views of the mapping and are not modelled separately. Iteration is modelled as the set of shows (`Cache.Shows`), without its order.
- The constructor's `data` parameter is unused by the source, and the model omits it.
- Cache.Equal: the other operand is a mapping of the same three-level shape. Python compares `items()` views of arbitrary mappings.
- Outside this model: `determine_compatibility` and `run_copier` in `main.py`, argument parsing, `get_config`, `get_default_config_path`, and `Converters.path`.

=== FILE: cache.dfy ===
/** The compatibility cache: a three-level store reached only through key resolution,
    with load-on-construct and explicit read/write of its file. The file is modelled by
    its contents; opening, touching and closing it are not modelled. */
module Cache {
  import opened Wrappers
  import opened Paths
  import opened Resolver
  import opened Store
  import opened CacheFile

  /** The in-memory cache, its library root, and the known shows under that root (the
      listing of the root's entries the source memoises per root). */
  datatype Cache = Cache(data: Store, basePath: FilePath, shows: set<Segment>)

  function KeyOf(c: Cache, p: FilePath): Result<Key, CacheError> {
    Resolve(c.shows, c.basePath, p)
  }

  /** `cache[p]`: the stored verdict. Resolution errors come first; a missing show, season
      or episode is `NotFound`, never a default. */
  function Get(c: Cache, p: FilePath): (r: Result<bool, CacheError>)
    ensures KeyOf(c, p).Failure? ==> r == Failure(KeyOf(c, p).error)
    ensures KeyOf(c, p).Success? ==>
              (r.Success? <==> Has(c.data, KeyOf(c, p).value))
              && (r.Success? ==> r.value == At(c.data, KeyOf(c, p).value))
              && (r.Failure? ==> r.error == NotFound)
  {
    var k :- KeyOf(c, p);
    if Has(c.data, k) then Success(At(c.data, k)) else Failure(NotFound)
  }

  /** `cache[p] = v`: resolution errors leave the cache as it was; otherwise exactly the
      resolved leaf is set, creating its show and season on demand. */
  function Set(c: Cache, p: FilePath, v: bool): (r: Result<Cache, CacheError>)
    ensures r.Success? <==> KeyOf(c, p).Success?
    ensures r.Failure? ==> r.error == KeyOf(c, p).error
    ensures r.Success? ==> r.value.basePath == c.basePath && r.value.shows == c.shows
    ensures r.Success? ==> Get(r.value, p) == Success(v)
    ensures r.Success? ==> Shows(r.value) == Shows(c) + {KeyOf(c, p).value.show}
    ensures r.Success? ==> r.value.data == Put(c.data, KeyOf(c, p).value, v)
    ensures r.Success? ==>
              forall q :: KeyOf(c, q) != KeyOf(c, p) ==> Get(r.value, q) == Get(c, q)
  {
    var k :- KeyOf(c, p);
    var c' := c.(data := Put(c.data, k, v));
    assert forall q :: KeyOf(c', q) == KeyOf(c, q);
    Success(c')
  }

  /** `del cache[p]`: fails exactly when `cache[p]` fails, with the same error; otherwise
      removes only the leaf, keeping its show and season. */
  function Delete(c: Cache, p: FilePath): (r: Result<Cache, CacheError>)
    ensures r.Success? <==> Get(c, p).Success?
    ensures r.Failure? ==> Get(c, p) == Failure(r.error)
    ensures r.Success? ==> r.value.basePath == c.basePath && r.value.shows == c.shows
    ensures r.Success? ==> Get(r.value, p) == Failure(NotFound)
    ensures r.Success? ==> Shows(r.value) == Shows(c)
    ensures r.Success? ==> r.value.data == Remove(c.data, KeyOf(c, p).value)
    ensures r.Success? ==>
              var k := KeyOf(c, p).value;
              k.season in r.value.data[k.show] && r.value.data[k.show].Keys == c.data[k.show].Keys
    ensures r.Success? ==>
              forall q :: KeyOf(c, q) != KeyOf(c, p) ==> Get(r.value, q) == Get(c, q)
  {
    var k :- KeyOf(c, p);
    if !Has(c.data, k) then Failure(NotFound)
    else
      var c' := c.(data := Remove(c.data, k));
      assert forall q :: KeyOf(c', q) == KeyOf(c, q);
      Success(c')
  }

  function SetCompatible(c: Cache, p: FilePath): (r: Result<Cache, CacheError>)
    ensures r.Success? <==> KeyOf(c, p).Success?
    ensures r.Success? ==> Get(r.value, p) == Success(true)
  {
    Set(c, p, true)
  }

  function SetIncompatible(c: Cache, p: FilePath): (r: Result<Cache, CacheError>)
    ensures r.Success? <==> KeyOf(c, p).Success?
    ensures r.Success? ==> Get(r.value, p) == Success(false)
  {
    Set(c, p, false)
  }

  /** Iterating the cache yields show names only. */
  function Shows(c: Cache): (r: set<string>)
    ensures forall show :: show in r <==> show in c.data
  {
    c.data.Keys
  }

  /** `len(cache)`: the number of shows, not of verdicts. */
  function Len(c: Cache): (n: nat)
    ensures n == |Shows(c)|
  {
    |c.data|
  }

  /** `cache == other`: the same shows, each with the same seasons and verdicts; the
      library root and known shows play no part. */
  function Equal(c: Cache, other: Store): (r: bool)
    ensures r <==> Shows(c) == other.Keys && forall show :: show in other ==> c.data[show] == other[show]
  {
    c.data == other
  }

  /** `clear()`: forget every entry; the file is not touched. */
  function Clear(c: Cache): (r: Cache)
    ensures Equal(r, map[]) && Len(r) == 0
    ensures r.basePath == c.basePath && r.shows == c.shows
  {
    c.(data := map[])
  }

  /** A freshly constructed cache and the file's contents afterwards. */
  datatype Opened = Opened(cache: Cache, file: string)

  /** Construction: an absent file is created empty and the cache starts empty; an existing
      file is loaded, and contents that are not a three-level object of booleans (an empty
      file included) are a construction error. */
  function Open(file: Option<string>, basePath: FilePath, shows: set<Segment>): (r: Result<Opened, CacheError>)
    ensures file.None? ==> r == Success(Opened(Cache(map[], basePath, shows), ""))
    ensures file.Some? ==> (r.Success? <==> Deserialise(file.value).Some?)
    ensures r.Failure? ==> r.error == MalformedCacheFile
    ensures r.Success? && file.Some? ==>
              && r.value.file == file.value
              && Some(r.value.cache.data) == Deserialise(file.value)
    ensures r.Success? ==> r.value.cache.basePath == basePath && r.value.cache.shows == shows
  {
    match file
    case None => Success(Opened(Cache(map[], basePath, shows), ""))
    case Some(text) =>
      match Deserialise(text)
      case None => Failure(MalformedCacheFile)
      case Some(data) => Success(Opened(Cache(data, basePath, shows), text))
  }

  /** `read()`: replace the in-memory entries with the file's. */
  function Read(c: Cache, file: string): (r: Result<Cache, CacheError>)
    ensures r.Success? <==> Deserialise(file).Some?
    ensures r.Failure? ==> r.error == MalformedCacheFile
    ensures r.Success? ==> r.value.basePath == c.basePath && r.value.shows == c.shows
    ensures r.Success? ==> Some(r.value.data) == Deserialise(file)
  {
    match Deserialise(file)
    case None => Failure(MalformedCacheFile)
    case Some(data) => Success(c.(data := data))
  }

  /** `write()`: the file's new contents. */
  function Write(c: Cache): (text: string)
    ensures Deserialise(text) == Some(c.data)
  {
    WriteReadRoundTrip(c.data);
    Serialise(c.data)
  }

  /** Reading what was written restores exactly the written entries, discarding any
      unwritten changes of the reader. */
  lemma WriteThenRead(written: Cache, reader: Cache)
    ensures Read(reader, Write(written)) == Success(reader.(data := written.data))
  {
  }

  /** Two caches are equal exactly when they write the same file. */
  lemma EqualIffSameFile(c: Cache, d: Cache)
    ensures Equal(c, d.data) <==> Write(c) == Write(d)
  {
    if Write(c) == Write(d) {
      assert Some(c.data) == Deserialise(Write(c)) == Deserialise(Write(d)) == Some(d.data);
    }
  }

  /** Constructing from a written file gives back an equal cache. */
  lemma OpenWritten(c: Cache)
    ensures Open(Some(Write(c)), c.basePath, c.shows) == Success(Opened(c, Write(c)))
  {
  }

  /** An existing but empty file does not load as an empty cache. */
  lemma OpenEmptyFileFails(basePath: FilePath, shows: set<Segment>)
    ensures Open(Some(""), basePath, shows) == Failure(MalformedCacheFile)
  {
  }

  /** A path under the library root and the same path relative to it name the same entry,
      for reading, writing and deleting alike. */
  lemma PathFormsAgree(c: Cache, rel: FilePath, v: bool)
    requires c.basePath.absolute && !rel.absolute && |rel.segments| > 0
    ensures Get(c, Join(c.basePath, rel)) == Get(c, rel)
    ensures Set(c, Join(c.basePath, rel), v) == Set(c, rel, v)
    ensures Delete(c, Join(c.basePath, rel)) == Delete(c, rel)
  {
    Resolver.PathFormsAgree(c.shows, c.basePath, rel);
  }

  /** A path that does not resolve fails with the same error for get, set and delete, and
      set then leaves nothing behind. */
  lemma ResolutionErrorsShared(c: Cache, p: FilePath, v: bool)
    requires KeyOf(c, p).Failure?
    ensures Get(c, p) == Failure(KeyOf(c, p).error)
    ensures Set(c, p, v) == Failure(KeyOf(c, p).error)
    ensures Delete(c, p) == Failure(KeyOf(c, p).error)
  {
  }

  /** Deleting what was just set succeeds, leaves the entry missing and the number of shows
      as the set made it. */
  lemma DeleteAfterSet(c: Cache, p: FilePath, v: bool)
    requires Set(c, p, v).Success?
    ensures Delete(Set(c, p, v).value, p).Success?
    ensures Get(Delete(Set(c, p, v).value, p).value, p) == Failure(NotFound)
    ensures Len(Delete(Set(c, p, v).value, p).value) == Len(Set(c, p, v).value)
  {
  }
}

=== FILE: cache_file.dfy ===
/** The cache file: the three-level store written as `json.dumps(data, sort_keys=True,
    indent=4)` writes it, and read back as `json.load` reads it. */
module CacheFile {
  import opened Wrappers
  import opened StringOrder
  import opened JsonTree
  import opened Store

  /** The members for keys `ks` of `m`, in that order, each value encoded with `enc`. */
  function Entries<V>(ks: seq<string>, m: map<string, V>, enc: V -> Json): (r: seq<(string, Json)>)
    requires forall k :: k in ks ==> k in m
    ensures |r| == |ks|
    ensures forall i :: 0 <= i < |ks| ==> r[i] == (ks[i], enc(m[ks[i]]))
  {
    if ks == [] then [] else [(ks[0], enc(m[ks[0]]))] + Entries(ks[1..], m, enc)
  }

  /** The keys of object members, in order. */
  function KeysOf(ms: seq<(string, Json)>): (ks: seq<string>)
    ensures |ks| == |ms| && forall i :: 0 <= i < |ms| ==> ks[i] == ms[i].0
  {
    seq(|ms|, i requires 0 <= i < |ms| => ms[i].0)
  }

  /** Object members whose keys strictly increase. */
  predicate MembersSorted(ms: seq<(string, Json)>) {
    StrictlySorted(KeysOf(ms))
  }

  /** Every object in the tree lists its keys in increasing order. */
  predicate SortedAtEveryLevel(j: Json) {
    j.Object? ==>
      && MembersSorted(j.members)
      && forall i :: 0 <= i < |j.members| ==> SortedAtEveryLevel(j.members[i].1)
  }

  /** A map as a JSON object with its keys sorted (`sort_keys=True`). */
  function EncodeObject<V>(m: map<string, V>, enc: V -> Json): (j: Json)
    ensures j.Object? && KeysOf(j.members) == SortedKeys(m.Keys)
    ensures forall i :: 0 <= i < |j.members| ==>
              j.members[i].0 in m && j.members[i].1 == enc(m[j.members[i].0])
  {
    var ks := SortedKeys(m.Keys);
    var es := Entries(ks, m, enc);
    assert KeysOf(es) == ks;
    Object(es)
  }

  /** The encoded object lists every key of the map exactly once, in sorted order. */
  lemma EncodeObjectKeys<V>(m: map<string, V>, enc: V -> Json)
    ensures MembersSorted(EncodeObject(m, enc).members)
    ensures |EncodeObject(m, enc).members| == |m|
    ensures forall k :: k in m <==> k in KeysOf(EncodeObject(m, enc).members)
  {
    assert StrictlySorted(KeysOf(EncodeObject(m, enc).members));
  }

  /** Member `i` is the last one with its key. */
  predicate LastOccurrence(ms: seq<(string, Json)>, i: nat)
    requires i < |ms|
  {
    forall j :: i < j < |ms| ==> ms[j].0 != ms[i].0
  }

  /** Member `i` is the last with its key exactly when member `i + 1` of the tail is. */
  lemma LastOccurrenceInTail(ms: seq<(string, Json)>, i: nat)
    requires 0 < i < |ms|
    ensures LastOccurrence(ms, i) <==> LastOccurrence(ms[1..], i - 1)
  {
    assert forall j :: 0 <= j < |ms| - 1 ==> ms[1..][j] == ms[j + 1];
  }

  /** The first member is the last with its key exactly when the tail never repeats it. */
  lemma FirstIsLast(ms: seq<(string, Json)>)
    requires 0 < |ms|
    ensures LastOccurrence(ms, 0) <==> ms[0].0 !in KeysOf(ms[1..])
  {
    assert forall j :: 0 <= j < |ms| - 1 ==> ms[1..][j] == ms[j + 1];
  }

  /** Members read as a map, as a Python `dict` is built from a JSON object: a later
      duplicate key wins, and the value it overwrote is never looked at. Only the values
      that end up in the map have to decode. */
  function DecodeMembers<V>(ms: seq<(string, Json)>, dec: Json -> Option<V>): (r: Option<map<string, V>>)
    ensures r.Some? <==> forall i :: 0 <= i < |ms| && LastOccurrence(ms, i) ==> dec(ms[i].1).Some?
    ensures r.Some? ==> forall k :: k in r.value <==> k in KeysOf(ms)
  {
    if ms == [] then Some(map[])
    else
      var rest := DecodeMembers(ms[1..], dec);
      assert KeysOf(ms) == [ms[0].0] + KeysOf(ms[1..]);
      assert forall i :: 0 < i < |ms| ==> (LastOccurrence(ms, i) <==> LastOccurrence(ms[1..], i - 1)) by {
        forall i | 0 < i < |ms| ensures LastOccurrence(ms, i) <==> LastOccurrence(ms[1..], i - 1) {
          LastOccurrenceInTail(ms, i);
        }
      }
      assert forall i :: 0 < i < |ms| ==> ms[i] == ms[1..][i - 1];
      FirstIsLast(ms);
      if rest.None? then None
      else if ms[0].0 in rest.value then rest
      else
        var v :- dec(ms[0].1);
        Some(rest.value[ms[0].0 := v])
  }

  /** The value a decoded key maps to is that of its last occurrence among the members. */
  lemma {:induction false} LastOccurrenceWins<V>(ms: seq<(string, Json)>, dec: Json -> Option<V>, i: nat)
    requires DecodeMembers(ms, dec).Some?
    requires i < |ms| && LastOccurrence(ms, i)
    ensures ms[i].0 in DecodeMembers(ms, dec).value
    ensures DecodeMembers(ms, dec).value[ms[i].0] == dec(ms[i].1).value
    decreases |ms|
  {
    var tail := ms[1..];
    var rest := DecodeMembers(tail, dec).value;
    if i == 0 {
      assert ms[0].0 !in KeysOf(tail) by {
        forall j | 0 <= j < |tail| ensures tail[j].0 != ms[0].0 {
          assert tail[j] == ms[j + 1];
        }
      }
    } else {
      assert LastOccurrence(tail, i - 1) by {
        forall j | i - 1 < j < |tail| ensures tail[j].0 != tail[i - 1].0 {
          assert tail[j] == ms[j + 1];
        }
      }
      LastOccurrenceWins(tail, dec, i - 1);
      assert tail[i - 1] == ms[i];
    }
  }

  /** A show listed twice keeps its last value, even when the value it overwrote is not
      of the cache's shape: `{"a": true, "a": {}}` loads as the show `a` with no seasons. */
  lemma OverwrittenValueIgnored()
    ensures DecodeMembers([("a", Bool(true)), ("a", Object([]))], DecodeShow) == Some(map["a" := map[]])
  {
    var ms := [("a", Bool(true)), ("a", Object([]))];
    assert DecodeMembers(ms[1..], DecodeShow) == Some(map["a" := map[]]) by {
      assert ms[1..][1..] == [];
    }
  }

  function DecodeObject<V>(j: Json, dec: Json -> Option<V>): Option<map<string, V>> {
    if j.Object? then DecodeMembers(j.members, dec) else None
  }

  function EncodeLeaf(b: bool): Json { Bool(b) }

  function DecodeLeaf(j: Json): Option<bool> {
    if j.Bool? then Some(j.b) else None
  }

  function EncodeSeason(m: map<string, bool>): Json { EncodeObject(m, EncodeLeaf) }

  function DecodeSeason(j: Json): Option<map<string, bool>> { DecodeObject(j, DecodeLeaf) }

  function EncodeShow(m: map<string, map<string, bool>>): Json { EncodeObject(m, EncodeSeason) }

  function DecodeShow(j: Json): Option<map<string, map<string, bool>>> { DecodeObject(j, DecodeSeason) }

  /** The whole store as a JSON tree. */
  function Encode(s: Store): Json { EncodeObject(s, EncodeShow) }

  /** A JSON tree of the three-level shape as a store; anything else is rejected. */
  function Decode(j: Json): Option<Store> { DecodeObject(j, DecodeShow) }

  /** The text `write` puts in the cache file. */
  function Serialise(s: Store): (text: string)
    ensures Parse(text) == Some(Encode(s))
  {
    PrintParseRoundTrip(Encode(s));
    Print(Encode(s), 0)
  }

  /** The store `read` loads from the cache file's text, if the text is a three-level
      object of booleans. */
  function Deserialise(text: string): (r: Option<Store>)
    ensures r.Some? <==> Parse(text).Some? && Decode(Parse(text).value).Some?
    ensures text == [] ==> r == None
  {
    var j :- Parse(text);
    Decode(j)
  }

  lemma {:induction false} DecodeEntries<V>(ks: seq<string>, m: map<string, V>, enc: V -> Json, dec: Json -> Option<V>)
    requires forall k :: k in ks ==> k in m && dec(enc(m[k])) == Some(m[k])
    ensures DecodeMembers(Entries(ks, m, enc), dec).Some?
    ensures forall k :: k in DecodeMembers(Entries(ks, m, enc), dec).value <==> k in ks
    ensures forall k :: k in DecodeMembers(Entries(ks, m, enc), dec).value ==>
              DecodeMembers(Entries(ks, m, enc), dec).value[k] == m[k]
  {
    if ks != [] {
      var es := Entries(ks, m, enc);
      assert es[1..] == Entries(ks[1..], m, enc);
      DecodeEntries(ks[1..], m, enc, dec);
      assert forall k :: k in ks <==> k == ks[0] || k in ks[1..];
    }
  }

  /** Decoding undoes encoding at one level, given that it does so for the values. */
  lemma EncodeDecodeObject<V>(m: map<string, V>, enc: V -> Json, dec: Json -> Option<V>)
    requires forall k :: k in m ==> dec(enc(m[k])) == Some(m[k])
    ensures DecodeObject(EncodeObject(m, enc), dec) == Some(m)
  {
    var ks := SortedKeys(m.Keys);
    DecodeEntries(ks, m, enc, dec);
    var r := DecodeMembers(Entries(ks, m, enc), dec).value;
    assert r.Keys == m.Keys;
    assert r == m;
  }

  lemma SeasonRoundTrip(m: map<string, bool>)
    ensures DecodeSeason(EncodeSeason(m)) == Some(m)
  {
    EncodeDecodeObject(m, EncodeLeaf, DecodeLeaf);
  }

  lemma ShowRoundTrip(m: map<string, map<string, bool>>)
    ensures DecodeShow(EncodeShow(m)) == Some(m)
  {
    forall k | k in m
      ensures DecodeSeason(EncodeSeason(m[k])) == Some(m[k])
    {
      SeasonRoundTrip(m[k]);
    }
    EncodeDecodeObject(m, EncodeSeason, DecodeSeason);
  }

  /** The tree of a store denotes that store. */
  lemma EncodeDecode(s: Store)
    ensures Decode(Encode(s)) == Some(s)
  {
    forall k | k in s
      ensures DecodeShow(EncodeShow(s[k])) == Some(s[k])
    {
      ShowRoundTrip(s[k]);
    }
    EncodeDecodeObject(s, EncodeShow, DecodeShow);
  }

  lemma SortedFromParts(j: Json)
    requires j.Object? && MembersSorted(j.members)
    requires forall i :: 0 <= i < |j.members| ==> SortedAtEveryLevel(j.members[i].1)
    ensures SortedAtEveryLevel(j)
  {
  }

  lemma SeasonSorted(m: map<string, bool>)
    ensures SortedAtEveryLevel(EncodeSeason(m))
  {
    var j := EncodeSeason(m);
    EncodeObjectKeys(m, EncodeLeaf);
    assert forall i :: 0 <= i < |j.members| ==> SortedAtEveryLevel(j.members[i].1);
    SortedFromParts(j);
  }

  lemma ShowSorted(m: map<string, map<string, bool>>)
    ensures SortedAtEveryLevel(EncodeShow(m))
  {
    var j := EncodeShow(m);
    EncodeObjectKeys(m, EncodeSeason);
    forall i | 0 <= i < |j.members|
      ensures SortedAtEveryLevel(j.members[i].1)
    {
      SeasonSorted(m[j.members[i].0]);
    }
    SortedFromParts(j);
  }

  /** Every level of the written tree lists its keys in sorted order. */
  lemma EncodeSorted(s: Store)
    ensures SortedAtEveryLevel(Encode(s))
  {
    var j := Encode(s);
    EncodeObjectKeys(s, EncodeShow);
    forall i | 0 <= i < |j.members|
      ensures SortedAtEveryLevel(j.members[i].1)
    {
      ShowSorted(s[j.members[i].0]);
    }
    SortedFromParts(j);
  }

  /** Persistence round trip: reading what `write` wrote gives back the same store, and
      the text is the printed form of a tree whose keys are sorted at every level. */
  lemma WriteReadRoundTrip(s: Store)
    ensures Deserialise(Serialise(s)) == Some(s)
    ensures Parse(Serialise(s)) == Some(Encode(s)) && SortedAtEveryLevel(Encode(s))
  {
    PrintParseRoundTrip(Encode(s));
    EncodeDecode(s);
    EncodeSorted(s);
  }
}

=== FILE: cache_scenario.dfy ===
/** The cache's own test, replayed on the model: a library root holding one known show.
    Episode file names are shortened to their episode numbers. */
module CacheScenario {
  import opened Wrappers
  import opened Paths
  import opened Resolver
  import opened Cache

  const LibraryRoot: FilePath := FilePath(true, ["media", "droppie", "libraries", "shows"])

  const PilotKey: Key := Key("South Park", "Season 01", "S01E01.avi")
  const SecondKey: Key := Key("South Park", "Season 02", "S02E02.avi")
  const ThirdKey: Key := Key("South Park", "Season 02", "S02E03.avi")

  const Pilot: FilePath := Join(LibraryRoot, KeyPath(PilotKey))

  const SecondSeason: FilePath := KeyPath(SecondKey)

  const Chickenlover: FilePath := Join(LibraryRoot, KeyPath(ThirdKey))

  const Misspelt: FilePath := FilePath(false, ["Ssouth Park", "Season 02", "S02E02.avi"])

  predicate IsTestCache(c: Cache) {
    c.basePath == LibraryRoot && c.shows == {"South Park"}
  }

  /** A cleared cache equals `{}` and is written as `{}`. */
  lemma ClearedIsEmpty(c: Cache)
    ensures Equal(Clear(c), map[]) && Write(Clear(c)) == "{}"
  {
  }

  /** One verdict makes the cache non-empty; clearing empties it again. */
  lemma OneVerdict(c: Cache)
    requires IsTestCache(c)
    ensures var a := SetCompatible(Clear(c), Pilot);
            a.Success? && !Equal(a.value, map[]) && Equal(Clear(a.value), map[])
  {
  }

  /** The test's three verdicts: the pilot by absolute path, an episode of the second
      season by relative path, and another episode of that season by absolute path. */
  function ThreeVerdicts(c: Cache): Result<Cache, CacheError> {
    var a :- SetCompatible(Clear(c), Pilot);
    var b :- SetIncompatible(a, SecondSeason);
    SetCompatible(b, Chickenlover)
  }

  /** Verdicts given through absolute and relative paths all land in the one show, and a
      misspelt show is refused with the source's message. */
  lemma ThreeVerdictsStored(c: Cache)
    requires IsTestCache(c)
    ensures ThreeVerdicts(c).Success?
    ensures var d := ThreeVerdicts(c).value;
            && Get(d, Chickenlover) == Success(true)
            && Get(d, Pilot) == Success(true)
            && Get(d, SecondSeason) == Success(false)
            && Len(d) == 1
            && SetIncompatible(d, Misspelt) == Failure(UnknownShow("Ssouth Park"))
  {
    var a := SetCompatible(Clear(c), Pilot).value;
    var b := SetIncompatible(a, SecondSeason).value;
    PilotStep(c);
    SecondStep(a);
    ThirdStep(b);
    assert ThreeVerdicts(c) == SetCompatible(b, Chickenlover);
  }

  lemma PilotStep(c: Cache)
    requires IsTestCache(c)
    ensures SetCompatible(Clear(c), Pilot).Success?
    ensures var a := SetCompatible(Clear(c), Pilot).value;
            IsTestCache(a) && Get(a, Pilot) == Success(true) && Shows(a) == {"South Park"}
  {
    ResolveAbsoluteForm(c.shows, LibraryRoot, PilotKey);
  }

  lemma SecondStep(a: Cache)
    requires IsTestCache(a)
    ensures SetIncompatible(a, SecondSeason).Success?
    ensures var b := SetIncompatible(a, SecondSeason).value;
            && IsTestCache(b)
            && Get(b, SecondSeason) == Success(false)
            && Get(b, Pilot) == Get(a, Pilot)
            && Shows(b) == Shows(a) + {"South Park"}
  {
    ResolveAbsoluteForm(a.shows, LibraryRoot, PilotKey);
    ResolveRelativeForm(a.shows, LibraryRoot, SecondKey);
  }

  lemma ThirdStep(b: Cache)
    requires IsTestCache(b)
    ensures SetCompatible(b, Chickenlover).Success?
    ensures var d := SetCompatible(b, Chickenlover).value;
            && IsTestCache(d)
            && Get(d, Chickenlover) == Success(true)
            && Get(d, Pilot) == Get(b, Pilot)
            && Get(d, SecondSeason) == Get(b, SecondSeason)
            && Shows(d) == Shows(b) + {"South Park"}
            && SetIncompatible(d, Misspelt) == Failure(UnknownShow("Ssouth Park"))
  {
    ResolveAbsoluteForm(b.shows, LibraryRoot, PilotKey);
    ResolveRelativeForm(b.shows, LibraryRoot, SecondKey);
    ResolveAbsoluteForm(b.shows, LibraryRoot, ThirdKey);
    UnknownShowIsReported(b.shows, LibraryRoot, Misspelt);
  }

  /** The error the test expects for the misspelt show. */
  lemma MisspeltMessage()
    ensures Message(UnknownShow("Ssouth Park")) == "Unknown show \"Ssouth Park\"."
  {
  }
}

=== FILE: converters.dfy ===
/** The `opts` converter of the configuration reader: a multi-line option value becomes a
    single line, `' '.join(value.strip().splitlines())`, with Python's notions of
    whitespace and of line boundaries. */
module Converters {

  /** Python's `str.isspace` characters. */
  predicate IsSpace(c: char) {
    var n := c as int;
    || 9 <= n <= 13 || 28 <= n <= 32 || n == 0x85 || n == 0xA0 || n == 0x1680
    || 0x2000 <= n <= 0x200A || n == 0x2028 || n == 0x2029 || n == 0x202F
    || n == 0x205F || n == 0x3000
  }

  /** The line boundaries of Python's `str.splitlines` (`"\r\n"` is one boundary made of
      two of them). */
  predicate IsLineBreak(c: char) {
    var n := c as int;
    || 10 <= n <= 13 || 28 <= n <= 30 || n == 0x85 || n == 0x2028 || n == 0x2029
  }

  predicate NoLineBreak(s: string) {
    forall i :: 0 <= i < |s| ==> !IsLineBreak(s[i])
  }

  /** Every line boundary is whitespace, so stripping removes trailing boundaries. */
  lemma LineBreakIsSpace(c: char)
    ensures IsLineBreak(c) ==> IsSpace(c)
  {
  }

  predicate AllSpace(s: string) {
    forall i :: 0 <= i < |s| ==> IsSpace(s[i])
  }

  /** The length of the run of whitespace that starts `s`. */
  function LeadingSpace(s: string): (n: nat)
    ensures n <= |s| && AllSpace(s[..n])
    ensures n < |s| ==> !IsSpace(s[n])
  {
    if s != [] && IsSpace(s[0]) then
      var n := 1 + LeadingSpace(s[1..]);
      assert s[..n] == [s[0]] + s[1..][..n - 1];
      n
    else 0
  }

  /** Where the run of whitespace that ends `s` starts. */
  function TrailingSpace(s: string): (m: nat)
    ensures m <= |s| && AllSpace(s[m..])
    ensures 0 < m ==> !IsSpace(s[m - 1])
  {
    if s != [] && IsSpace(s[|s| - 1]) then
      var m := TrailingSpace(s[..|s| - 1]);
      assert s[m..] == s[..|s| - 1][m..] + [s[|s| - 1]];
      m
    else |s|
  }

  /** `s.strip()`: what lies between the leading and the trailing whitespace. */
  function Strip(s: string): (r: string)
    ensures r == [] <==> AllSpace(s)
    ensures r != [] ==> && LeadingSpace(s) < TrailingSpace(s)
                        && r == s[LeadingSpace(s)..TrailingSpace(s)]
                        && !IsSpace(r[0]) && !IsSpace(r[|r| - 1])
  {
    var i := LeadingSpace(s);
    var j := TrailingSpace(s);
    if i == |s| then
      assert s[..i] == s;
      []
    else
      assert !AllSpace(s);
      assert i < j;
      s[i..j]
  }

  /** The index of the first line boundary in `s`, or `|s|`. */
  function FirstBreak(s: string): (e: nat)
    ensures e <= |s| && forall i :: 0 <= i < e ==> !IsLineBreak(s[i])
    ensures e < |s| ==> IsLineBreak(s[e])
  {
    if s == [] || IsLineBreak(s[0]) then 0 else 1 + FirstBreak(s[1..])
  }

  /** How many characters the boundary at `e` takes: two for `"\r\n"`, else one. */
  function BreakWidth(s: string, e: nat): (w: nat)
    requires e < |s|
    ensures 1 <= w <= 2 && e + w <= |s|
    ensures w == 2 ==> s[e] == '\r' && s[e + 1] == '\n'
  {
    if s[e] == '\r' && e + 1 < |s| && s[e + 1] == '\n' then 2 else 1
  }

  /** `s.splitlines()`: the lines of `s` without their boundaries; a boundary at the very
      end does not open another line, and the empty string has no lines. */
  function SplitLines(s: string): (ls: seq<string>)
    ensures ls == [] <==> s == []
    ensures forall i :: 0 <= i < |ls| ==> NoLineBreak(ls[i])
    decreases |s|
  {
    if s == [] then []
    else
      var e := FirstBreak(s);
      if e == |s| then [s]
      else [s[..e]] + SplitLines(s[e + BreakWidth(s, e)..])
  }

  /** `sep.join(ls)`. */
  function Join(ls: seq<string>, sep: string): (r: string)
    ensures ls == [] ==> r == []
    ensures ls != [] ==> |ls[0]| <= |r| && r[..|ls[0]|] == ls[0]
    ensures NoLineBreak(sep) && (forall i :: 0 <= i < |ls| ==> NoLineBreak(ls[i])) ==> NoLineBreak(r)
  {
    if ls == [] then []
    else if |ls| == 1 then ls[0]
    else ls[0] + sep + Join(ls[1..], sep)
  }

  /** `Converters.opts`. */
  function Opts(v: string): (r: string)
    ensures NoLineBreak(r)
    ensures r == [] || (!IsSpace(r[0]) && !IsSpace(r[|r| - 1]))
    ensures r == [] <==> AllSpace(v)
  {
    var s := Strip(v);
    JoinedLinesAreFlattened(s);
    if s == [] then []
    else
      LineBreakIsSpace(s[0]);
      LineBreakIsSpace(s[|s| - 1]);
      FlattenEdges(s);
      Join(SplitLines(s), " ")
  }

  /** Reference: every line boundary of `s` replaced by one space, `"\r\n"` counting as a
      single boundary. */
  function Flatten(s: string): (r: string)
    ensures NoLineBreak(r)
    ensures r == [] <==> s == []
    decreases |s|
  {
    if s == [] then []
    else if IsLineBreak(s[0]) then " " + Flatten(s[BreakWidth(s, 0)..])
    else [s[0]] + Flatten(s[1..])
  }

  /** `Flatten` keeps the first and last characters unless they are boundaries. */
  lemma {:induction false} FlattenEdges(s: string)
    requires s != []
    ensures !IsLineBreak(s[0]) ==> Flatten(s)[0] == s[0]
    ensures !IsLineBreak(s[|s| - 1]) ==> Flatten(s)[|Flatten(s)| - 1] == s[|s| - 1]
    decreases |s|
  {
    var r := Flatten(s);
    if IsLineBreak(s[0]) {
      var rest := s[BreakWidth(s, 0)..];
      if rest != [] {
        assert rest[|rest| - 1] == s[|s| - 1];
        FlattenEdges(rest);
      }
    } else if |s| > 1 {
      FlattenEdges(s[1..]);
    }
  }

  /** `Flatten` leaves a string without boundaries as it is. */
  lemma {:induction false} FlattenPlain(s: string)
    requires NoLineBreak(s)
    ensures Flatten(s) == s
    decreases |s|
  {
    if s != [] {
      FlattenPlain(s[1..]);
      assert s == [s[0]] + s[1..];
    }
  }

  /** Flattening up to the first boundary keeps that line and puts one space for the
      boundary. */
  lemma {:induction false} FlattenAtBreak(s: string, e: nat, w: nat)
    requires e == FirstBreak(s) < |s| && w == BreakWidth(s, e)
    ensures Flatten(s) == s[..e] + " " + Flatten(s[e + w..])
    decreases |s|
  {
    if e == 0 {
      FlattenBreak(s);
      assert s[..e] + " " == " ";
    } else {
      var t := s[1..];
      var a := t[..e - 1];
      var f := Flatten(s[e + w..]);
      assert Flatten(t) == a + " " + f by {
        assert FirstBreak(t) == e - 1;
        assert BreakWidth(t, e - 1) == w;
        FlattenAtBreak(t, e - 1, w);
        assert t[e - 1 + w..] == s[e + w..];
      }
      assert Flatten(s) == [s[0]] + Flatten(t) by {
        FlattenPlainStep(s);
      }
      assert s[..e] == [s[0]] + a;
      Regroup([s[0]], a, " ", f);
    }
  }

  lemma FlattenBreak(s: string)
    requires s != [] && IsLineBreak(s[0])
    ensures Flatten(s) == " " + Flatten(s[BreakWidth(s, 0)..])
  {
  }

  lemma FlattenPlainStep(s: string)
    requires s != [] && !IsLineBreak(s[0])
    ensures Flatten(s) == [s[0]] + Flatten(s[1..])
  {
  }

  lemma Regroup(x: string, a: string, b: string, c: string)
    ensures x + (a + b + c) == x + a + b + c
  {
  }

  /** The lines of a string joined by single spaces are the string with each boundary
      replaced by a space, when the string does not end in a boundary. */
  lemma {:induction false} JoinedLinesAreFlattened(s: string)
    requires s == [] || !IsLineBreak(s[|s| - 1])
    ensures Join(SplitLines(s), " ") == Flatten(s)
    decreases |s|
  {
    if s != [] {
      var e := FirstBreak(s);
      if e == |s| {
        assert s[..e] == s;
        FlattenPlain(s);
      } else {
        var w := BreakWidth(s, e);
        var rest := s[e + w..];
        assert rest != [] && rest[|rest| - 1] == s[|s| - 1];
        var ls := SplitLines(rest);
        calc {
          Join(SplitLines(s), " ");
          { SplitAtBreak(s, e, w); }
          Join([s[..e]] + ls, " ");
          { JoinCons(s[..e], ls, " "); }
          s[..e] + " " + Join(ls, " ");
          { JoinedLinesAreFlattened(rest); }
          s[..e] + " " + Flatten(rest);
          { FlattenAtBreak(s, e, w); }
          Flatten(s);
        }
      }
    }
  }

  lemma SplitAtBreak(s: string, e: nat, w: nat)
    requires e == FirstBreak(s) < |s| && w == BreakWidth(s, e)
    ensures SplitLines(s) == [s[..e]] + SplitLines(s[e + w..])
  {
    assert s != [] && e != |s|;
  }

  lemma JoinCons(l: string, ls: seq<string>, sep: string)
    requires ls != []
    ensures Join([l] + ls, sep) == l + sep + Join(ls, sep)
  {
    assert ([l] + ls)[1..] == ls;
  }

  /** The converter is the reference applied to the stripped value. */
  lemma OptsIsFlattenedStrip(v: string)
    ensures Opts(v) == Flatten(Strip(v))
  {
    var s := Strip(v);
    if s != [] {
      LineBreakIsSpace(s[|s| - 1]);
    }
    JoinedLinesAreFlattened(s);
  }

  /** Stripping leaves a value without surrounding whitespace as it is. */
  lemma StripClean(x: string)
    requires x == [] || (!IsSpace(x[0]) && !IsSpace(x[|x| - 1]))
    ensures Strip(x) == x
  {
    if x != [] {
      assert LeadingSpace(x) == 0;
      assert TrailingSpace(x) == |x|;
      assert !AllSpace(x);
    }
  }

  /** A single line without surrounding whitespace comes back unchanged. */
  lemma SingleLineUnchanged(x: string)
    requires NoLineBreak(x)
    requires x == [] || (!IsSpace(x[0]) && !IsSpace(x[|x| - 1]))
    ensures Opts(x) == x
  {
    StripClean(x);
    if x != [] {
      assert FirstBreak(x) == |x|;
      assert SplitLines(x) == [x];
    }
  }

  /** Converting twice is converting once. */
  lemma OptsIdempotent(v: string)
    ensures Opts(Opts(v)) == Opts(v)
  {
    SingleLineUnchanged(Opts(v));
  }

  /** `Flatten` keeps a boundary-free prefix as it is. */
  lemma {:induction false} FlattenPlainPrefix(a: string, b: string)
    requires NoLineBreak(a)
    ensures Flatten(a + b) == a + Flatten(b)
    decreases |a|
  {
    if a != [] {
      assert (a + b)[0] == a[0] && (a + b)[1..] == a[1..] + b;
      FlattenPlainStep(a + b);
      FlattenPlainPrefix(a[1..], b);
      var f := Flatten(b);
      calc {
        Flatten(a + b);
        [a[0]] + Flatten(a[1..] + b);
        [a[0]] + (a[1..] + f);
        [a[0]] + a[1..] + f;
        { assert [a[0]] + a[1..] == a; }
        a + f;
      }
    } else {
      assert a + b == b;
    }
  }

  /** Lines joined by newlines flatten to the same lines joined by spaces. */
  lemma {:induction false} FlattenJoin(ls: seq<string>)
    requires forall i :: 0 <= i < |ls| ==> NoLineBreak(ls[i])
    ensures Flatten(Join(ls, "\n")) == Join(ls, " ")
  {
    if |ls| == 1 {
      FlattenPlain(ls[0]);
    } else if |ls| > 1 {
      var tail := Join(ls[1..], "\n");
      FlattenJoin(ls[1..]);
      assert Join(ls, "\n") == ls[0] + ("\n" + tail);
      FlattenPlainPrefix(ls[0], "\n" + tail);
      assert ("\n" + tail)[1..] == tail;
      FlattenBreak("\n" + tail);
    }
  }

  /** Lines given one per line, without whitespace around the whole value, come out joined
      by single spaces. */
  lemma LinesJoinedBySpace(ls: seq<string>)
    requires forall i :: 0 <= i < |ls| ==> NoLineBreak(ls[i])
    requires var x := Join(ls, "\n"); x == [] || (!IsSpace(x[0]) && !IsSpace(x[|x| - 1]))
    ensures Opts(Join(ls, "\n")) == Join(ls, " ")
  {
    var x := Join(ls, "\n");
    StripClean(x);
    OptsIsFlattenedStrip(x);
    FlattenJoin(ls);
  }

  /** An empty line between two options leaves two spaces between them. */
  lemma EmptyLineAddsSpace()
    ensures Opts("a\n\nb") == "a  b"
  {
    var ls := ["a", "", "b"];
    assert Join(ls, "\n") == "a\n\nb" by {
      assert Join(ls[1..], "\n") == "\nb";
    }
    assert Join(ls, " ") == "a  b" by {
      assert Join(ls[1..], " ") == " b";
    }
    assert forall i :: 0 <= i < |ls| ==> NoLineBreak(ls[i]);
    LinesJoinedBySpace(ls);
  }
}

=== FILE: json_string.dfy ===
/** JSON string literals as `json.dumps` writes them with its default `ensure_ascii=True`
    and as `json.load` reads them back. */
module JsonString {
  import opened Wrappers

  /** A lower-case hexadecimal digit. */
  function HexDigit(d: int): (c: char)
    requires 0 <= d < 16
    ensures '0' <= c <= 'f'
  {
    if d < 10 then ('0' as int + d) as char else ('a' as int + d - 10) as char
  }

  /** Four lower-case hexadecimal digits, as `'{0:04x}'.format(n)`. */
  function Hex4(n: int): (r: string)
    requires 0 <= n < 0x10000
    ensures |r| == 4
    ensures forall i :: 0 <= i < 4 ==> '0' <= r[i] <= 'f'
  {
    [HexDigit(n / 16 / 16 / 16), HexDigit(n / 16 / 16 % 16), HexDigit(n / 16 % 16), HexDigit(n % 16)]
  }

  /** The value of one hexadecimal digit of either case. */
  function HexValue(c: char): (r: Option<int>)
    ensures r.Some? ==> 0 <= r.value < 16
  {
    if '0' <= c <= '9' then Some(c as int - '0' as int)
    else if 'a' <= c <= 'f' then Some(c as int - 'a' as int + 10)
    else if 'A' <= c <= 'F' then Some(c as int - 'A' as int + 10)
    else None
  }

  function Hex4Value(h: string): (r: Option<int>)
    requires |h| == 4
    ensures r.Some? ==> 0 <= r.value < 0x10000
  {
    var a :- HexValue(h[0]);
    var b :- HexValue(h[1]);
    var c :- HexValue(h[2]);
    var d :- HexValue(h[3]);
    Some(a * 0x1000 + b * 0x100 + c * 0x10 + d)
  }

  lemma HexDigitValue(d: int)
    requires 0 <= d < 16
    ensures HexValue(HexDigit(d)) == Some(d)
  {
  }

  lemma Hex4RoundTrip(n: int)
    requires 0 <= n < 0x10000
    ensures Hex4Value(Hex4(n)) == Some(n)
  {
    var q1 := n / 16;
    var q2 := q1 / 16;
    var q3 := q2 / 16;
    assert Hex4(n) == [HexDigit(q3), HexDigit(q2 % 16), HexDigit(q1 % 16), HexDigit(n % 16)];
    DigitsValue(q3, q2 % 16, q1 % 16, n % 16);
    DigitsCombine(n, q1, q2, q3);
  }

  lemma DigitsValue(a: int, b: int, c: int, d: int)
    requires 0 <= a < 16 && 0 <= b < 16 && 0 <= c < 16 && 0 <= d < 16
    ensures Hex4Value([HexDigit(a), HexDigit(b), HexDigit(c), HexDigit(d)])
            == Some(a * 0x1000 + b * 0x100 + c * 0x10 + d)
  {
    HexDigitValue(a);
    HexDigitValue(b);
    HexDigitValue(c);
    HexDigitValue(d);
  }

  lemma DigitsCombine(n: int, q1: int, q2: int, q3: int)
    requires 0 <= n && q1 == n / 16 && q2 == q1 / 16 && q3 == q2 / 16
    ensures q3 * 0x1000 + q2 % 16 * 0x100 + q1 % 16 * 0x10 + n % 16 == n
  {
    assert n == q1 * 16 + n % 16;
    assert q1 == q2 * 16 + q1 % 16;
    assert q2 == q3 * 16 + q2 % 16;
  }

  /** The UTF-16 surrogate pair of a code point outside the Basic Multilingual Plane. */
  function HighSurrogate(c: char): (r: int)
    requires c as int >= 0x10000
    ensures 0xD800 <= r < 0xDC00
  {
    0xD800 + (c as int - 0x10000) / 0x400
  }

  function LowSurrogate(c: char): (r: int)
    requires c as int >= 0x10000
    ensures 0xDC00 <= r < 0xE000
  {
    0xDC00 + (c as int - 0x10000) % 0x400
  }

  /** The code point a surrogate pair stands for. */
  function CombineSurrogates(hi: int, lo: int): (r: char)
    requires 0xD800 <= hi < 0xDC00 && 0xDC00 <= lo < 0xE000
    ensures r as int >= 0x10000
  {
    (0x10000 + (hi - 0xD800) * 0x400 + (lo - 0xDC00)) as char
  }

  lemma SurrogatesRoundTrip(c: char)
    requires c as int >= 0x10000
    ensures CombineSurrogates(HighSurrogate(c), LowSurrogate(c)) == c
  {
    var n := c as int - 0x10000;
    assert n == (n / 0x400) * 0x400 + n % 0x400;
  }

  /** A character that `ensure_ascii` writes as itself. */
  predicate IsPlain(c: char) {
    ' ' <= c <= '~' && c != '"' && c != '\\'
  }

  /** The escaped form of one character. */
  function EscapeChar(c: char): (r: string)
    ensures |r| > 0
    ensures forall i :: 0 <= i < |r| ==> ' ' <= r[i] <= '~'
    ensures IsPlain(c) <==> r == [c]
  {
    if c == '"' then "\\\""
    else if c == '\\' then "\\\\"
    else if c == '\n' then "\\n"
    else if c == '\r' then "\\r"
    else if c == '\t' then "\\t"
    else if c as int == 0x08 then "\\b"
    else if c as int == 0x0C then "\\f"
    else if ' ' <= c <= '~' then [c]
    else if c as int < 0x10000 then "\\u" + Hex4(c as int)
    else "\\u" + Hex4(HighSurrogate(c)) + "\\u" + Hex4(LowSurrogate(c))
  }

  /** The body of a JSON string literal for `s` (without the surrounding quotes). */
  function Escape(s: string): (r: string)
    ensures forall i :: 0 <= i < |r| ==> ' ' <= r[i] <= '~'
    ensures (forall i :: 0 <= i < |s| ==> IsPlain(s[i])) ==> r == s
  {
    if s == [] then []
    else
      EscapeChar(s[0]) + Escape(s[1..])
  }

  /** Read the escape sequence that follows a backslash. */
  function ParseEscape(s: string): (r: Option<(char, string)>)
    ensures r.Some? ==> |r.value.1| < |s|
  {
    if |s| == 0 then None
    else if s[0] == '"' then Some(('"', s[1..]))
    else if s[0] == '\\' then Some(('\\', s[1..]))
    else if s[0] == '/' then Some(('/', s[1..]))
    else if s[0] == 'b' then Some((0x08 as char, s[1..]))
    else if s[0] == 'f' then Some((0x0C as char, s[1..]))
    else if s[0] == 'n' then Some(('\n', s[1..]))
    else if s[0] == 'r' then Some(('\r', s[1..]))
    else if s[0] == 't' then Some(('\t', s[1..]))
    else if s[0] == 'u' && |s| >= 5 then
      var n :- Hex4Value(s[1..5]);
      if 0xD800 <= n < 0xDC00 then
        if |s| >= 11 && s[5] == '\\' && s[6] == 'u' then
          var m :- Hex4Value(s[7..11]);
          if 0xDC00 <= m < 0xE000 then Some((CombineSurrogates(n, m), s[11..])) else None
        else None
      else if 0xDC00 <= n < 0xE000 then None
      else Some((n as char, s[5..]))
    else None
  }

  /** Read one (possibly escaped) character of a string literal's body. */
  function ParseChar(s: string): (r: Option<(char, string)>)
    requires |s| > 0
    ensures r.Some? ==> |r.value.1| < |s|
  {
    if s[0] == '\\' then ParseEscape(s[1..])
    else if s[0] as int < 0x20 || s[0] == '"' then None
    else Some((s[0], s[1..]))
  }

  /** Read a string literal's body up to and including its closing quote; returns the
      decoded string and the text after the quote. */
  function ParseStringBody(s: string): (r: Option<(string, string)>)
    ensures r.Some? ==> |r.value.1| < |s|
    decreases |s|
  {
    if |s| == 0 then None
    else if s[0] == '"' then Some(([], s[1..]))
    else
      var cr :- ParseChar(s);
      var tr :- ParseStringBody(cr.1);
      Some(([cr.0] + tr.0, tr.1))
  }

  lemma UnicodeShape(h: string, t: string)
    requires |h| == 4
    ensures var u := ("\\u" + h + t)[1..];
            ("\\u" + h + t)[0] == '\\' && |u| >= 5 && u[0] == 'u' && u[1..5] == h && u[5..] == t
  {
  }

  lemma PairShape(h: string, l: string, t: string)
    requires |h| == 4 && |l| == 4
    ensures var u := ("\\u" + h + "\\u" + l + t)[1..];
            && ("\\u" + h + "\\u" + l + t)[0] == '\\'
            && |u| >= 11 && u[0] == 'u' && u[1..5] == h && u[5] == '\\' && u[6] == 'u'
            && u[7..11] == l && u[11..] == t
  {
    var u := ("\\u" + h + "\\u" + l + t)[1..];
    assert u == "u" + h + "\\u" + l + t;
    assert u[11..] == t;
  }

  /** A character of the Basic Multilingual Plane written as `\uXXXX` reads back. */
  lemma UnicodeEscapeRoundTrip(c: char, t: string)
    requires c as int < 0x10000
    ensures ParseChar("\\u" + Hex4(c as int) + t) == Some((c, t))
  {
    UnicodeShape(Hex4(c as int), t);
    Hex4RoundTrip(c as int);
  }

  /** A character beyond the Basic Multilingual Plane written as a surrogate pair reads back. */
  lemma PairEscapeRoundTrip(c: char, t: string)
    requires c as int >= 0x10000
    ensures ParseChar("\\u" + Hex4(HighSurrogate(c)) + "\\u" + Hex4(LowSurrogate(c)) + t) == Some((c, t))
  {
    PairShape(Hex4(HighSurrogate(c)), Hex4(LowSurrogate(c)), t);
    Hex4RoundTrip(HighSurrogate(c));
    Hex4RoundTrip(LowSurrogate(c));
    SurrogatesRoundTrip(c);
  }

  lemma ShortEscapeRoundTrip(x: char, c: char, t: string)
    requires ParseEscape([x]) == Some((c, []))
    requires x != 'u'
    ensures ParseChar(['\\', x] + t) == Some((c, t))
  {
    assert (['\\', x] + t)[1..] == [x] + t;
  }

  lemma EscapeCharRoundTrip(c: char, t: string)
    ensures ParseChar(EscapeChar(c) + t) == Some((c, t))
  {
    if c == '"' {
      ShortEscapeRoundTrip('"', c, t);
    } else if c == '\\' {
      ShortEscapeRoundTrip('\\', c, t);
    } else if c == '\n' {
      ShortEscapeRoundTrip('n', c, t);
    } else if c == '\r' {
      ShortEscapeRoundTrip('r', c, t);
    } else if c == '\t' {
      ShortEscapeRoundTrip('t', c, t);
    } else if c as int == 0x08 {
      ShortEscapeRoundTrip('b', c, t);
    } else if c as int == 0x0C {
      ShortEscapeRoundTrip('f', c, t);
    } else if ' ' <= c <= '~' {
      assert EscapeChar(c) + t == [c] + t;
    } else if c as int < 0x10000 {
      UnicodeEscapeRoundTrip(c, t);
    } else {
      PairEscapeRoundTrip(c, t);
    }
  }

  /** Reading back what `Escape` wrote, followed by the closing quote, gives the original
      string and leaves whatever follows untouched. */
  lemma {:induction false} StringRoundTrip(s: string, t: string)
    ensures ParseStringBody(Escape(s) + "\"" + t) == Some((s, t))
  {
    if s == [] {
      assert Escape(s) + "\"" + t == ['"'] + t;
    } else {
      var e := EscapeChar(s[0]);
      var tail := Escape(s[1..]) + "\"" + t;
      assert Escape(s) + "\"" + t == e + tail;
      EscapeCharRoundTrip(s[0], tail);
      StringRoundTrip(s[1..], t);
      assert [s[0]] + s[1..] == s;
    }
  }
}

=== FILE: json_tree.dfy ===
/** The part of JSON the cache file uses, objects and booleans, with the layout
    `json.dumps(..., indent=4)` produces and a reader for JSON text of that kind. */
module JsonTree {
  import opened Wrappers
  import opened JsonString

  /** An object keeps its members in text order, duplicates included. */
  datatype Json = Bool(b: bool) | Object(members: seq<(string, Json)>)

  /** JSON's insignificant whitespace. */
  predicate IsWs(c: char) {
    c == ' ' || c == '\t' || c == '\n' || c == '\r'
  }

  /** `4 * level` spaces. */
  function Indent(level: nat): (r: string)
    ensures |r| == 4 * level
    ensures forall i :: 0 <= i < |r| ==> r[i] == ' '
  {
    seq(4 * level, _ => ' ')
  }

  /** `json.dumps(j, indent=4)` for a value nested `level` deep: an empty object is "{}",
      members go one per line with ": " after the key and "," between members. */
  function Print(j: Json, level: nat): (r: string)
    ensures |r| > 0 && (r[0] == 't' || r[0] == 'f' || r[0] == '{')
    decreases j, 1
  {
    match j
    case Bool(b) => if b then "true" else "false"
    case Object(ms) =>
      if |ms| == 0 then "{}"
      else "{" + PrintMembers(j, level + 1, 0) + "\n" + Indent(level) + "}"
  }

  /** Members `i..` of object `j`, each on a new line indented to `level`. */
  function PrintMembers(j: Json, level: nat, i: nat): (r: string)
    requires j.Object? && i < |j.members|
    ensures |r| > 0 && r[0] == '\n'
    decreases j, 0, |j.members| - i
  {
    "\n" + Indent(level) + MemberText(j.members[i].0, j.members[i].1, level)
    + (if i + 1 < |j.members| then "," + PrintMembers(j, level, i + 1) else "")
  }

  /** One member: the quoted, escaped key, ": ", and the value. */
  function MemberText(key: string, value: Json, level: nat): (r: string)
    ensures |r| > 0 && r[0] == '"'
    decreases value, 2
  {
    "\"" + Escape(key) + "\": " + Print(value, level)
  }

  /** The text with its leading whitespace removed. */
  function SkipWs(s: string): (r: string)
    ensures |r| <= |s|
    ensures |r| > 0 ==> !IsWs(r[0])
  {
    if |s| > 0 && IsWs(s[0]) then SkipWs(s[1..]) else s
  }

  /** Read one value; returns it and the text after it. */
  function ParseValue(s: string): (r: Option<(Json, string)>)
    ensures r.Some? ==> |r.value.1| < |s|
    decreases |s|, 1
  {
    if |s| == 0 then None
    else if s[0] == 't' then
      if |s| >= 4 && s[..4] == "true" then Some((Bool(true), s[4..])) else None
    else if s[0] == 'f' then
      if |s| >= 5 && s[..5] == "false" then Some((Bool(false), s[5..])) else None
    else if s[0] == '{' then
      var t := SkipWs(s[1..]);
      if |t| > 0 && t[0] == '}' then Some((Object([]), t[1..]))
      else ParseMembers(t, [])
    else None
  }

  /** Read the members of an object whose first members `acc` are already read, up to and
      including the closing brace. */
  function ParseMembers(s: string, acc: seq<(string, Json)>): (r: Option<(Json, string)>)
    ensures r.Some? ==> |r.value.1| < |s|
    decreases |s|, 0
  {
    if |s| == 0 || s[0] != '"' then None
    else
      var kr :- ParseStringBody(s[1..]);
      var t := SkipWs(kr.1);
      if |t| == 0 || t[0] != ':' then None
      else
        var vr :- ParseValue(SkipWs(t[1..]));
        ParseAfterMember(vr.1, acc + [(kr.0, vr.0)])
  }

  /** After a member: either "," and further members, or the closing brace. */
  function ParseAfterMember(s: string, members: seq<(string, Json)>): (r: Option<(Json, string)>)
    ensures r.Some? ==> |r.value.1| < |s|
    decreases |s|, 0
  {
    var u := SkipWs(s);
    if |u| == 0 then None
    else if u[0] == ',' then ParseMembers(SkipWs(u[1..]), members)
    else if u[0] == '}' then Some((Object(members), u[1..]))
    else None
  }

  /** `json.loads` restricted to objects and booleans: one value, surrounded by optional
      whitespace and nothing else. */
  function Parse(text: string): Option<Json> {
    var r :- ParseValue(SkipWs(text));
    if SkipWs(r.1) == [] then Some(r.0) else None
  }

  lemma {:induction false} SkipWsPrefix(w: string, t: string)
    requires forall i :: 0 <= i < |w| ==> IsWs(w[i])
    ensures SkipWs(w + t) == SkipWs(t)
  {
    if w != [] {
      var s := w + t;
      assert s[0] == w[0] && IsWs(w[0]);
      assert SkipWs(s) == SkipWs(s[1..]);
      assert s[1..] == w[1..] + t;
      assert forall i :: 0 <= i < |w[1..]| ==> w[1..][i] == w[i + 1];
      SkipWsPrefix(w[1..], t);
    } else {
      assert w + t == t;
    }
  }

  lemma SkipWsStops(t: string)
    requires |t| > 0 && !IsWs(t[0])
    ensures SkipWs(t) == t
  {
  }

  /** The text after member `i`: the further members, then the closing brace on its own
      line one level out. */
  function MembersTail(j: Json, level: nat, i: nat): string
    requires j.Object? && i < |j.members| && level > 0
  {
    (if i + 1 < |j.members| then "," + PrintMembers(j, level, i + 1) else "")
    + "\n" + Indent(level - 1) + "}"
  }

  lemma MembersShape(j: Json, level: nat, i: nat, rest: string)
    requires j.Object? && i < |j.members| && level > 0
    ensures PrintMembers(j, level, i) + "\n" + Indent(level - 1) + "}" + rest
            == "\n" + Indent(level) + (MemberText(j.members[i].0, j.members[i].1, level) + MembersTail(j, level, i) + rest)
  {
    var more := if i + 1 < |j.members| then "," + PrintMembers(j, level, i + 1) else "";
    ShapeRegroup(Indent(level), MemberText(j.members[i].0, j.members[i].1, level), more, Indent(level - 1), rest);
  }

  lemma ShapeRegroup(ind: string, member: string, more: string, outer: string, rest: string)
    ensures "\n" + ind + member + more + "\n" + outer + "}" + rest
            == "\n" + ind + (member + (more + "\n" + outer + "}") + rest)
  {
  }

  /** Leading layout before a member is skipped. */
  lemma SkipToMember(j: Json, level: nat, i: nat, rest: string)
    requires j.Object? && i < |j.members| && level > 0
    ensures SkipWs(PrintMembers(j, level, i) + "\n" + Indent(level - 1) + "}" + rest)
            == MemberText(j.members[i].0, j.members[i].1, level) + MembersTail(j, level, i) + rest
  {
    var body := MemberText(j.members[i].0, j.members[i].1, level) + MembersTail(j, level, i) + rest;
    MembersShape(j, level, i, rest);
    SkipWsPrefix("\n" + Indent(level), body);
    SkipWsStops(body);
  }

  /** One step of `ParseMembers`, on text whose key and separator are already known to
      read as given. */
  lemma MemberUnfold(s: string, acc: seq<(string, Json)>, key: string, afterKey: string, v: string)
    requires |s| > 0 && s[0] == '"' && ParseStringBody(s[1..]) == Some((key, afterKey))
    requires SkipWs(afterKey) == afterKey && |afterKey| > 0 && afterKey[0] == ':'
    requires SkipWs(afterKey[1..]) == v
    ensures ParseMembers(s, acc)
            == (var vr :- ParseValue(v); ParseAfterMember(vr.1, acc + [(key, vr.0)]))
  {
  }

  /** The separator after a key: ": " and then the value's first character. */
  lemma ColonStep(v: string)
    requires |v| > 0 && !IsWs(v[0])
    ensures SkipWs(": " + v) == ": " + v
    ensures SkipWs((": " + v)[1..]) == v
  {
    var s := ": " + v;
    assert s[0] == ':';
    SkipWsStops(s);
    var u := s[1..];
    assert u[0] == ' ' && u[1..] == v;
    SkipWsStops(v);
  }

  lemma MemberShape(e: string, p: string, after: string)
    ensures var s := "\"" + e + "\": " + p + after;
            s[0] == '"' && s[1..] == e + "\"" + (": " + (p + after))
  {
  }

  /** Reading one member that `MemberText` wrote, given that its value reads back. */
  lemma MemberStep(key: string, value: Json, level: nat, after: string, acc: seq<(string, Json)>)
    ensures ParseMembers(MemberText(key, value, level) + after, acc)
            == (var vr :- ParseValue(Print(value, level) + after); ParseAfterMember(vr.1, acc + [(key, vr.0)]))
  {
    var v := Print(value, level) + after;
    var afterKey := ": " + v;
    var s := MemberText(key, value, level) + after;
    MemberShape(Escape(key), Print(value, level), after);
    StringRoundTrip(key, afterKey);
    ColonStep(v);
    MemberUnfold(s, acc, key, afterKey, v);
  }

  /** What follows the last member closes the object. */
  lemma CloseStep(j: Json, level: nat, rest: string)
    requires j.Object? && |j.members| > 0 && level > 0
    ensures ParseAfterMember(MembersTail(j, level, |j.members| - 1) + rest, j.members)
            == Some((j, rest))
  {
    var after := MembersTail(j, level, |j.members| - 1) + rest;
    assert after == "\n" + Indent(level - 1) + ("}" + rest);
    SkipWsPrefix("\n" + Indent(level - 1), "}" + rest);
    SkipWsStops("}" + rest);
  }

  /** What follows a non-last member continues with the next one. */
  lemma NextStep(j: Json, level: nat, i: nat, rest: string, members: seq<(string, Json)>)
    requires j.Object? && i + 1 < |j.members| && level > 0
    ensures ParseAfterMember(MembersTail(j, level, i) + rest, members)
            == ParseMembers(MemberText(j.members[i + 1].0, j.members[i + 1].1, level)
                              + MembersTail(j, level, i + 1) + rest, members)
  {
    var after := MembersTail(j, level, i) + rest;
    assert after == "," + (PrintMembers(j, level, i + 1) + "\n" + Indent(level - 1) + "}" + rest);
    SkipWsStops(after);
    SkipToMember(j, level, i + 1, rest);
  }

  lemma OpenShape(pm: string, ind: string, rest: string)
    ensures var s := "{" + pm + "\n" + ind + "}" + rest;
            s[0] == '{' && s[1..] == pm + "\n" + ind + "}" + rest
  {
  }

  /** An opening brace followed by a member starts reading members. */
  lemma OpenStep(s: string, body: string)
    requires |s| > 0 && s[0] == '{' && SkipWs(s[1..]) == body && |body| > 0 && body[0] == '"'
    ensures ParseValue(s) == ParseMembers(body, [])
  {
  }

  lemma LiteralStep(b: bool, rest: string)
    ensures ParseValue((if b then "true" else "false") + rest) == Some((Bool(b), rest))
  {
    var s := (if b then "true" else "false") + rest;
    if b {
      assert s[..4] == "true" && s[4..] == rest;
    } else {
      assert s[0] == 'f' && s[..4] != "true";
      assert s[..5] == "false" && s[5..] == rest;
    }
  }

  lemma EmptyObjectStep(rest: string)
    ensures ParseValue("{}" + rest) == Some((Object([]), rest))
  {
    var s := "{}" + rest;
    assert s[1..] == "}" + rest;
  }

  /** A non-empty object that `Print` wrote opens onto its first member. */
  lemma ObjectOpens(j: Json, level: nat, rest: string)
    requires j.Object? && |j.members| > 0
    ensures ParseValue(Print(j, level) + rest)
            == ParseMembers(MemberText(j.members[0].0, j.members[0].1, level + 1)
                              + MembersTail(j, level + 1, 0) + rest, [])
  {
    var s := Print(j, level) + rest;
    OpenShape(PrintMembers(j, level + 1, 0), Indent(level), rest);
    SkipToMember(j, level + 1, 0, rest);
    OpenStep(s, MemberText(j.members[0].0, j.members[0].1, level + 1) + MembersTail(j, level + 1, 0) + rest);
  }

  /** Reading back what `Print` wrote gives the same value and leaves what follows. */
  lemma {:induction false} ValueRoundTrip(j: Json, level: nat, rest: string)
    ensures ParseValue(Print(j, level) + rest) == Some((j, rest))
    decreases j, 1
  {
    match j
    case Bool(b) =>
      LiteralStep(b, rest);
    case Object(ms) =>
      if |ms| == 0 {
        EmptyObjectStep(rest);
      } else {
        ObjectOpens(j, level, rest);
        assert ms[..0] == [];
        MembersRoundTrip(j, level + 1, 0, rest);
      }
  }

  lemma {:induction false} MembersRoundTrip(j: Json, level: nat, i: nat, rest: string)
    requires j.Object? && i < |j.members| && level > 0
    ensures ParseMembers(MemberText(j.members[i].0, j.members[i].1, level) + MembersTail(j, level, i) + rest,
                         j.members[..i])
            == Some((j, rest))
    decreases j, 0, |j.members| - i, 1
  {
    var ms := j.members;
    MemberThenAfter(j, level, i, rest);
    if i + 1 < |ms| {
      NextStep(j, level, i, rest, ms[..i + 1]);
      MembersRoundTrip(j, level, i + 1, rest);
    } else {
      assert ms[..i + 1] == ms;
      CloseStep(j, level, rest);
    }
  }

  /** Member `i` reads back and parsing continues after it with one more member read. */
  lemma {:induction false} MemberThenAfter(j: Json, level: nat, i: nat, rest: string)
    requires j.Object? && i < |j.members| && level > 0
    ensures ParseMembers(MemberText(j.members[i].0, j.members[i].1, level) + MembersTail(j, level, i) + rest,
                         j.members[..i])
            == ParseAfterMember(MembersTail(j, level, i) + rest, j.members[..i + 1])
    decreases j, 0, |j.members| - i, 0
  {
    var ms := j.members;
    var m := ms[i];
    var tail := MembersTail(j, level, i);
    var after := tail + rest;
    Assoc(MemberText(m.0, m.1, level), tail, rest);
    MemberStep(m.0, m.1, level, after, ms[..i]);
    ValueRoundTrip(m.1, level, after);
    assert ms[..i] + [(m.0, m.1)] == ms[..i + 1];
  }

  lemma Assoc(a: string, b: string, c: string)
    ensures a + b + c == a + (b + c)
  {
  }

  /** Whatever `Print` writes at the top level, `Parse` reads back unchanged. */
  lemma PrintParseRoundTrip(j: Json)
    ensures Parse(Print(j, 0)) == Some(j)
  {
    var s := Print(j, 0);
    SkipWsStops(s);
    assert s + [] == s;
    ValueRoundTrip(j, 0, []);
  }
}

=== FILE: paths.dfy ===
/** POSIX file paths as `pathlib` represents them after normalisation: an absolute flag
    and a sequence of non-empty segments. Parsing a path string is not modelled; a
    `FilePath` is the already-normalised value. */
module Paths {

  /** One normalised path component: never empty, never ".", never containing '/'. */
  predicate IsSegment(s: string) {
    |s| > 0 && s != "." && '/' !in s
  }

  type Segment = s: string | IsSegment(s) witness "a"

  datatype FilePath = FilePath(absolute: bool, segments: seq<Segment>)

  /** The path's `parts` tuple: the root "/" first for an absolute path, then the segments. */
  function Parts(p: FilePath): (r: seq<string>)
    ensures |r| == |p.segments| + (if p.absolute then 1 else 0)
    ensures p.absolute ==> r[0] == "/"
    ensures forall i :: 0 <= i < |p.segments| ==> r[|r| - |p.segments| + i] == p.segments[i]
  {
    (if p.absolute then ["/"] else []) + p.segments
  }

  /** `base in p.parents`: `base` is a strict ancestor of `p` of the same kind. */
  predicate IsParentOf(base: FilePath, p: FilePath) {
    && base.absolute == p.absolute
    && |base.segments| < |p.segments|
    && base.segments == p.segments[..|base.segments|]
  }

  /** `base / rel` for a relative `rel`. */
  function Join(base: FilePath, rel: FilePath): (r: FilePath)
    requires !rel.absolute
    ensures r.absolute == base.absolute
    ensures |rel.segments| > 0 ==> IsParentOf(base, r)
  {
    FilePath(base.absolute, base.segments + rel.segments)
  }

  /** `p.relative_to(base)` when `base` is one of `p`'s parents. */
  function RelativeTo(p: FilePath, base: FilePath): (r: FilePath)
    requires IsParentOf(base, p)
    ensures !r.absolute && |r.segments| > 0
    ensures Join(base, r) == p
  {
    FilePath(false, p.segments[|base.segments|..])
  }

  /** Joining and then relativising gives back the relative path. */
  lemma RelativeToJoin(base: FilePath, rel: FilePath)
    requires !rel.absolute && |rel.segments| > 0
    ensures RelativeTo(Join(base, rel), base) == rel
  {
    assert (base.segments + rel.segments)[|base.segments|..] == rel.segments;
  }
}

=== FILE: resolver.dfy ===
/** Key resolution: turning a video-file path into the (show, season, episode) key of the
    compatibility cache, validated against the set of known shows. */
module Resolver {
  import opened Wrappers
  import opened Paths

  /** The three-level key under which a compatibility verdict is stored. */
  datatype Key = Key(show: Segment, season: Segment, episode: Segment)

  /** The failures the cache surfaces to its callers. */
  datatype CacheError =
    | UnknownShow(show: string)
    | MalformedKey(parts: seq<string>)
    | NotFound
    | MalformedCacheFile

  /** The text of each error. The unknown-show text is the source's own; the others stand
      for the messages of Python's built-in exceptions. */
  function Message(e: CacheError): (r: string)
    ensures e.UnknownShow? ==>
              && |r| == |e.show| + 16
              && r[..14] == "Unknown show \""
              && r[14..|r| - 2] == e.show
              && r[|r| - 2..] == "\"."
  {
    match e
    case UnknownShow(show) => "Unknown show \"" + show + "\"."
    case MalformedKey(parts) => "Path does not have exactly three parts."
    case NotFound => "Not found."
    case MalformedCacheFile => "Malformed cache file."
  }

  /** The library-relative path `show/season/episode` of a key. */
  function KeyPath(k: Key): (p: FilePath)
    ensures !p.absolute && |p.segments| == 3
  {
    FilePath(false, [k.show, k.season, k.episode])
  }

  /** The path as it is split into parts: relative to `base` when `base` is a parent. */
  function Relativise(base: FilePath, p: FilePath): (r: FilePath)
    ensures IsParentOf(base, p) ==> !r.absolute && Join(base, r) == p
    ensures !IsParentOf(base, p) ==> r == p
  {
    if IsParentOf(base, p) then RelativeTo(p, base) else p
  }

  /** Resolve `p` against the library root `base` and the known shows. */
  function Resolve(shows: set<Segment>, base: FilePath, p: FilePath): (r: Result<Key, CacheError>)
    ensures r.Success? ==>
              && r.value.show in shows
              && (p == KeyPath(r.value) || p == Join(base, KeyPath(r.value)))
    ensures r.Failure? ==>
              || (r.error.UnknownShow? && r.error.show !in shows)
              || (r.error.MalformedKey? && |r.error.parts| != 3)
  {
    var parts := Parts(Relativise(base, p));
    if |parts| != 3 then
      Failure(MalformedKey(parts))
    else if parts[0] !in shows then
      Failure(UnknownShow(parts[0]))
    else
      var rel := Relativise(base, p);
      var k := Key(rel.segments[0], rel.segments[1], rel.segments[2]);
      assert rel == KeyPath(k);
      Success(k)
  }

  /** The library-relative form of a key with a known show resolves to that key,
      provided the library root is absolute. */
  lemma ResolveRelativeForm(shows: set<Segment>, base: FilePath, k: Key)
    requires base.absolute && k.show in shows
    ensures Resolve(shows, base, KeyPath(k)) == Success(k)
  {
  }

  /** The absolute form (library root joined with the key path) resolves to that key. */
  lemma ResolveAbsoluteForm(shows: set<Segment>, base: FilePath, k: Key)
    requires k.show in shows
    ensures Resolve(shows, base, Join(base, KeyPath(k))) == Success(k)
  {
    RelativeToJoin(base, KeyPath(k));
  }

  /** Path-form independence: a non-empty relative path and the same path under an
      absolute library root resolve identically, errors included. */
  lemma PathFormsAgree(shows: set<Segment>, base: FilePath, rel: FilePath)
    requires base.absolute && !rel.absolute && |rel.segments| > 0
    ensures Resolve(shows, base, Join(base, rel)) == Resolve(shows, base, rel)
  {
    RelativeToJoin(base, rel);
  }

  /** A path that does not have three parts after relativisation is rejected with its
      parts, never truncated or padded. */
  lemma WrongDepthIsMalformed(shows: set<Segment>, base: FilePath, p: FilePath)
    requires |Parts(Relativise(base, p))| != 3
    ensures Resolve(shows, base, p) == Failure(MalformedKey(Parts(Relativise(base, p))))
  {
  }

  /** A three-part path whose show is not known fails with that show's name. */
  lemma UnknownShowIsReported(shows: set<Segment>, base: FilePath, p: FilePath)
    requires |Parts(Relativise(base, p))| == 3
    requires Parts(Relativise(base, p))[0] !in shows
    ensures Resolve(shows, base, p) == Failure(UnknownShow(Parts(Relativise(base, p))[0]))
  {
  }
}

=== FILE: store.dfy ===
/** The in-memory shape of the compatibility cache: show -> season -> episode -> verdict,
    and the leaf-level operations on it. Keys loaded from a file are arbitrary strings;
    keys written through the cache always come from the resolver. */
module Store {
  import opened Resolver

  type Store = map<string, map<string, map<string, bool>>>

  /** The whole show -> season -> episode chain of `k` is present. */
  predicate Has(s: Store, k: Key) {
    k.show in s && k.season in s[k.show] && k.episode in s[k.show][k.season]
  }

  /** The verdict stored at `k`. */
  function At(s: Store, k: Key): bool
    requires Has(s, k)
  {
    s[k.show][k.season][k.episode]
  }

  /** Store `v` at `k`, creating the show and season levels on demand; nothing else changes. */
  function Put(s: Store, k: Key, v: bool): (r: Store)
    ensures Has(r, k) && At(r, k) == v
    ensures r.Keys == s.Keys + {k.show}
    ensures r[k.show].Keys == (if k.show in s then s[k.show].Keys else {}) + {k.season}
    ensures forall show :: show in s && show != k.show ==> show in r && r[show] == s[show]
    ensures k.show in s ==>
              forall season :: season in s[k.show] && season != k.season ==>
                season in r[k.show] && r[k.show][season] == s[k.show][season]
    ensures r[k.show][k.season].Keys ==
              (if k.show in s && k.season in s[k.show] then s[k.show][k.season].Keys else {}) + {k.episode}
    ensures forall e :: e in r[k.show][k.season] && e != k.episode ==>
              k.show in s && k.season in s[k.show] && e in s[k.show][k.season]
              && r[k.show][k.season][e] == s[k.show][k.season][e]
    ensures forall k' :: k' != k ==> (Has(r, k') <==> Has(s, k'))
    ensures forall k' :: k' != k && Has(s, k') ==> At(r, k') == At(s, k')
  {
    var seasons := if k.show in s then s[k.show] else map[];
    var episodes := if k.season in seasons then seasons[k.season] else map[];
    s[k.show := seasons[k.season := episodes[k.episode := v]]]
  }

  /** Remove the leaf at `k`; the show and season levels stay even when they become empty. */
  function Remove(s: Store, k: Key): (r: Store)
    requires Has(s, k)
    ensures !Has(r, k)
    ensures r.Keys == s.Keys
    ensures r[k.show].Keys == s[k.show].Keys
    ensures r[k.show][k.season].Keys == s[k.show][k.season].Keys - {k.episode}
    ensures forall e :: e in r[k.show][k.season] ==> r[k.show][k.season][e] == s[k.show][k.season][e]
    ensures forall season :: season in s[k.show] && season != k.season ==>
              r[k.show][season] == s[k.show][season]
    ensures forall show :: show in s && show != k.show ==> r[show] == s[show]
    ensures forall k' :: k' != k ==> (Has(r, k') <==> Has(s, k'))
    ensures forall k' :: k' != k && Has(s, k') ==> At(r, k') == At(s, k')
  {
    var seasons := s[k.show];
    var episodes := seasons[k.season];
    s[k.show := seasons[k.season := episodes - {k.episode}]]
  }
}

=== FILE: string_order.dfy ===
/** Python's ordering of `str` values (code point by code point, a proper prefix first)
    and the sorted key listing `json.dumps(..., sort_keys=True)` relies on. */
module StringOrder {

  /** `a < b` on Python strings. */
  predicate Below(a: string, b: string) {
    if |a| == 0 then |b| > 0
    else if |b| == 0 then false
    else a[0] < b[0] || (a[0] == b[0] && Below(a[1..], b[1..]))
  }

  lemma {:induction false} BelowAsymmetric(a: string, b: string)
    ensures !(Below(a, b) && Below(b, a))
  {
    if |a| > 0 && |b| > 0 && a[0] == b[0] {
      BelowAsymmetric(a[1..], b[1..]);
    }
  }

  lemma {:induction false} BelowTransitive(a: string, b: string, c: string)
    requires Below(a, b) && Below(b, c)
    ensures Below(a, c)
  {
    if |a| > 0 && a[0] == b[0] && b[0] == c[0] {
      BelowTransitive(a[1..], b[1..], c[1..]);
    }
  }

  lemma {:induction false} BelowTotal(a: string, b: string)
    requires a != b
    ensures Below(a, b) || Below(b, a)
  {
    if |a| > 0 && |b| > 0 && a[0] == b[0] {
      assert a == [a[0]] + a[1..] && b == [b[0]] + b[1..];
      BelowTotal(a[1..], b[1..]);
    }
  }

  /** `m` is the smallest element of `s`. */
  predicate IsLeast(m: string, s: set<string>) {
    m in s && forall x :: x in s && x != m ==> Below(m, x)
  }

  lemma {:induction false} LeastExists(s: set<string>)
    requires s != {}
    ensures exists m :: IsLeast(m, s)
    decreases |s|
  {
    var x :| x in s;
    if s == {x} {
      assert IsLeast(x, s);
    } else {
      LeastExists(s - {x});
      var m :| IsLeast(m, s - {x});
      if Below(m, x) {
        assert IsLeast(m, s);
      } else {
        BelowTotal(m, x);
        forall y | y in s && y != x
          ensures Below(x, y)
        {
          if y != m { BelowTransitive(x, m, y); }
        }
        assert IsLeast(x, s);
      }
    }
  }

  lemma LeastUnique(s: set<string>)
    ensures forall m, m' :: IsLeast(m, s) && IsLeast(m', s) ==> m == m'
  {
    forall m, m' | IsLeast(m, s) && IsLeast(m', s)
      ensures m == m'
    {
      BelowAsymmetric(m, m');
    }
  }

  /** Strictly increasing, hence also free of duplicates. */
  predicate StrictlySorted(ks: seq<string>) {
    forall i, j :: 0 <= i < j < |ks| ==> Below(ks[i], ks[j])
  }

  /** The elements of `s` in increasing order. */
  function SortedKeys(s: set<string>): (r: seq<string>)
    ensures StrictlySorted(r)
    ensures |r| == |s|
    ensures forall k :: k in r <==> k in s
    decreases |s|
  {
    if s == {} then []
    else
      LeastExists(s);
      LeastUnique(s);
      var m :| IsLeast(m, s);
      var rest := SortedKeys(s - {m});
      assert forall i :: 0 <= i < |rest| ==> rest[i] in s - {m};
      [m] + rest
  }
}

=== FILE: wrappers.dfy ===
/** Failure-compatible wrappers used throughout the model: an optional value and a
    result that carries either a value or an error. Both support `:-`. */
module Wrappers {

  datatype Option<+T> = None | Some(value: T) {

    predicate IsFailure() {
      None?
    }

    function PropagateFailure<U>(): Option<U>
      requires None?
    {
      None
    }

    function Extract(): T
      requires Some?
    {
      value
    }
  }

  datatype Result<+R, +E> = Success(value: R) | Failure(error: E) {

    predicate IsFailure() {
      Failure?
    }

    function PropagateFailure<U>(): Result<U, E>
      requires Failure?
    {
      Failure(error)
    }

    function Extract(): R
      requires Success?
    {
      value
    }
  }
}
